=== FILE: README.md ===
# Village showcase page: slider and scroll-reveal model

A Dafny model of the interactive part of the village president's showcase
page, `js/script.js`: the image slider (current index, slide flags, dot
flags, auto-advance interval) with its click, hover, swipe and arrow-key
triggers, and the scroll-reveal rule that marks cards `visible`. The DOM is
abstracted to sequences of `active` flags and sets of element ids, and every
listener becomes a pure transition over an immutable state.

Files:

- `wrappers.dfy` — `Option`, standing in for `undefined`/`null`.
- `js_numbers.dfy` — JavaScript's truncating `%` (`JsRem`) and how the
  slider's wrap `(index + N) % N` relates to the true modulo.
- `slider.dfy` — slider state, `goToSlide`, `changeSlide`,
  `startAutoSlide`/`stopAutoSlide`, the exactly-one-active invariant and the
  cyclic law.
- `gestures.dfy` — the swipe classifier and the arrow-key mapping.
- `scroll_reveal.dfy` — the intersection callback.
- `page_events.dfy` — `DOMContentLoaded` set-up, one-event dispatch, runs of
  events, and the page invariant.

`goToSlide` is modelled for every integer index. Its result is `Completed`
or `Threw`. For `index < -N` with `index` not a multiple of `N`, JavaScript's
`%` gives a negative `currentSlide`, and reading
`slides[currentSlide].classList` then throws. This happens after the old
slide and dot were deactivated, so `Threw` carries that partial state.
`Threw` also covers a `currentSlide` that is already out of range. No caller
reaches either case: `changeSlide` passes `current ± 1`, and dot clicks pass
`0..N-1`. `PageEvents.RunPreservesValid` proves that no listener throws on a
valid page.

Two details of the code that a quick reading can miss:

- The wrap is `(index + N) % N` with JavaScript's truncating `%`. It is a
  true modulo for `index >= -N` and for every multiple of `N`, and negative
  for any other index below `-N`. `((index % N) + N) % N` would work for
  every index. See `JsNumbers.WrapIndex`.
- `initSlider` stores `slides` (line 23) before its early return when there
  is no dots container (line 26). Arrow keys therefore still move the slide
  flags on such a page, with no dots and no timer. `PageEvents.InitSlider`
  keeps the slides in that case.

## Model

| member | source | states |
|---|---|---|
| `JsNumbers.JsRem` | js/script.js:101 | JavaScript `%` on a positive divisor: the result lies in `[0, n)` for a non-negative dividend and in `(-n, 0]` for a negative one, differs from the dividend by a multiple of `n`, and is zero exactly when `n` divides the dividend |
| `JsNumbers.WrapIndex` | js/script.js:101 | `(index + n) % n` under JavaScript's operator equals the true residue `index mod n` whenever `index >= -n`; it is negative exactly when `index < -n` and `n` does not divide `index` |
| `Slider.StopAutoSlide` | js/script.js:123-128 | afterwards no handle is held; only the held interval is disarmed; when no interval is held, nothing changes; a consistent timer ends with nothing armed |
| `Slider.StartAutoSlide` | js/script.js:113-118 | the new handle is held and armed; every other interval still armed is one the script no longer holds; from a consistent timer exactly the new interval is armed |
| `Slider.StartTwiceArmsOne` | js/script.js:113-128 | two starts in a row leave only the second interval armed |
| `Slider.StopIdempotent` | js/script.js:123-128 | stopping twice equals stopping once; stopping with no interval held is a no-op |
| `Slider.SetDot` | js/script.js:96-106 | with a dot list, only dot `i` changes, to the given flag, when `i` is in range; without one, nothing changes |
| `Slider.GoToSlide` | js/script.js:91-108 | without slides, index, flags and timer are unchanged; the call throws exactly when the index is out of range or the target is below `-N` and not a multiple of `N`; when the index is already out of range, it throws before changing anything; when it throws from an in-range index, the index is left at the negative JavaScript remainder, the old slide and dot are already cleared, and every other flag is unchanged; for a target `>= -N` the new index is `target mod N`; on completion the old slide and dot are cleared, the new ones set, and every other flag and the timer are unchanged |
| `Slider.GoToSlideWraps` | js/script.js:101 | from any in-range index, `goToSlide(-1)` lands on the last slide and `goToSlide(N)` on the first |
| `Slider.FiveSlideExamples` | js/script.js:101 | with five slides from index 0, target -1 goes to 4 and target 7 goes to 2; target -7 throws and leaves index -2; target -10, a multiple of 5, completes at 0 |
| `Slider.GoToSlidePreservesValid` | js/script.js:94-107 | from a state where exactly one slide and one dot are active at the index, a target `>= -N` completes and again leaves exactly one active slide and one active dot, both at `target mod N` |
| `Slider.ChangeSlide` | js/script.js:83-85 | without slides nothing changes; with the index in range and a step `>= -1`, it completes at `(current + direction) mod N`; the timer is untouched |
| `Slider.ChangeSlidePreservesValid` | js/script.js:83-85 | a step of at least -1 from a valid state completes and keeps the one-active-slide and one-active-dot invariant |
| `Slider.ActiveCount` | js/script.js:94-107 | the number of set `active` flags never exceeds the number of elements |
| `Slider.NoneActiveCount` | js/script.js:94-107 | no flag is set exactly when the count of set flags is zero |
| `Slider.OneActiveIffCountOne` | js/script.js:94-107 | "exactly one active, at `k`" said flag by flag is the same as "flag `k` is set and exactly one flag is set" |
| `Slider.ValidMeansExactlyOneActive` | js/script.js:94-107 | a valid slider has exactly one active slide and, when dots exist, exactly one active dot, counted |
| `Slider.ChangeSlideStep` | js/script.js:83-101 | one step of at least -1 from a valid state keeps the state valid, the dot list's presence and the timer; with slides it keeps the slide count and moves the index to `(current + direction) mod N` |
| `Slider.ChangeSlideTimesIndex` | js/script.js:83-101 | after `k` steps of +1 or -1 from a valid state, the index is `current ± k mod N`; the state stays valid, the slide count, the timer and the dot list's presence are kept |
| `Slider.ValidStateDeterminedByIndex` | js/script.js:94-107 | in a valid state the index determines every slide and dot flag |
| `Slider.CyclicReturn` | js/script.js:83-101 | `N` calls of `changeSlide(1)`, or `N` calls of `changeSlide(-1)`, return the whole slider state to where it started |
| `Gestures.SwipeDirection` | js/script.js:65-76 | a displacement `start - end` above 50 means next, below -50 means previous, and anything from -50 to 50 inclusive means no move |
| `Gestures.HandleSwipe` | js/script.js:65-76 | a swipe at or under the threshold leaves the slider unchanged; otherwise it is `changeSlide` in the swipe's direction |
| `Gestures.SwipeAntisymmetric` | js/script.js:65-76 | swapping a swipe's start and end reverses its direction |
| `Gestures.SwipeThresholdIsStrict` | js/script.js:66-69 | 49 and exactly 50 pixels do nothing, leftward or rightward; 51 pixels leftward moves forward one slide and 51 pixels rightward moves back one |
| `Gestures.KeyDirection` | js/script.js:175-179 | `ArrowLeft` maps to -1, `ArrowRight` to +1, and every other key to no move |
| `Gestures.OnKeyDown` | js/script.js:174-180 | `ArrowLeft` is `changeSlide(-1)`, `ArrowRight` is `changeSlide(1)`, and any other key leaves the slider unchanged |
| `Gestures.GesturesPreserveValid` | js/script.js:65-180 | from a valid slider, every swipe and every key press completes and keeps the invariant |
| `ScrollReveal.Reveal` | js/script.js:140-146 | cards already visible stay visible; every target reported as intersecting becomes visible; nothing else becomes visible |
| `ScrollReveal.RevealIdempotent` | js/script.js:140-146 | replaying the same intersection reports changes nothing |
| `ScrollReveal.RevealIgnoresNonIntersecting` | js/script.js:142 | reports with no intersecting entry leave the visible set unchanged |
| `ScrollReveal.RevealMonotone` | js/script.js:140-146 | the callback preserves inclusion between visible sets |
| `ScrollReveal.RevealStaysObserved` | js/script.js:140-156 | if every report concerns an observed card, only observed cards are ever visible |
| `PageEvents.InitSlider` | js/script.js:22-63 | slides are always recorded. With no slides or no dots container, nothing else changes. Otherwise there is one dot per slide with only dot 0 active, the new interval is held, the hover and swipe listeners exist exactly when their elements do, and both touch coordinates start at 0. An interval is armed afterwards exactly when it is the new one or it was armed before without being the held one, so intervals the script had lost stay armed; when the prior timer was consistent, the new interval is the only one armed |
| `PageEvents.InitScrollAnimations` | js/script.js:133-157 | the observed cards become the work cards plus the video cards; the page is otherwise equal to the one before |
| `PageEvents.Dispatch` | js/script.js:33-62 | the observed set never changes and the visible set only grows. A tick for a disarmed interval does nothing. When the hover listeners exist, entering the slider leaves no handle held and leaving it holds the new handle (the armed-set change is stated in `PageEvents.DispatchWiring`); without them hovering does nothing. Without the touch listeners touches do nothing. Without slides, keys, ticks and dot clicks do nothing |
| `PageEvents.DomContentLoaded` | js/script.js:14-17 | after load the slides are recorded, the index is 0, the observed cards are the work and video cards and none is visible; with slides and a dots container exactly the new interval is armed and only dot 0 is active; otherwise there are no dots, no timer and no hover or touch listeners |
| `PageEvents.DispatchWiring` | js/script.js:33-180 | a key press is the keydown listener; a touch start stores its coordinate; a touch end stores its coordinate and classifies the swipe from the stored start; an intersection report is the observer callback; with the hover listeners, entering the slider is `stopAutoSlide` and leaving it is `startAutoSlide` with the new handle, and nothing else changes; a tick of an armed interval is `changeSlide(1)`; a click on an existing dot is `goToSlide` with its index |
| `PageEvents.SwipeAcrossTouches` | js/script.js:50-76 | a touch start at `start` followed by a touch end at `end` moves forward when `start - end > 50`, back when `end - start > 50`, and otherwise only records both coordinates |
| `PageEvents.TickAdvances` | js/script.js:115-117 | a tick of the armed interval on a valid slider completes and moves to the next slide, wrapping from the last slide to the first |
| `PageEvents.DotClickSelects` | js/script.js:33 | clicking dot `i` on a valid slider completes with index `i`, and slide `i` and dot `i` active |
| `PageEvents.LoadEstablishesValid` | js/script.js:14-40 | if the markup marks only the first slide active, the loaded page is valid with slide 0 and dot 0 the active pair |
| `PageEvents.DispatchPreservesValid` | js/script.js:83-128 | every event on a valid page completes without an exception and keeps the page valid, provided any intersection report concerns only observed cards |
| `PageEvents.RunPreservesValid` | js/script.js:14-180 | over any run of events, if every intersection report concerns an observed card, no listener throws. The active slide and dot stay single and at the same index, at most the held interval is armed, and a card once visible stays visible |
| `PageEvents.KeysBeforeLoadDoNothing` | js/script.js:92 | arrow keys pressed before the document is ready change nothing |

## Left out

- DOM querying, element creation, `classList` mechanics and listener
  registration are abstracted away. Slides and dots become `active` flags,
  and the registered listeners become the `pauseOnHover` and `swipeEnabled`
  flags.
- `dots` is taken to be exactly the dots `initSlider` creates. The real
  `querySelectorAll('.dot')` would also pick up any `.dot` already in the
  markup. The slide flags at load come from the markup:
  `PageEvents.LoadEstablishesValid` assumes the markup marks only the first
  slide active.
- Interval timing (the 5000 ms period) is left out. A tick is an event
  naming an interval. It moves the slider only while that interval is armed.
- Handles returned by `setInterval` are parameters. They are positive, as
  browsers return them, so the truthiness test on `slideInterval` only asks
  whether a handle is held.
- The IntersectionObserver's geometry, including its 10% threshold and root
  margin, is left out. The model receives each entry's `isIntersecting`
  verdict.
- `scrollToSection` (lines 163-171) is left out. It is a thin wrapper over
  the browser's smooth scrolling and has no state of its own.
- Text-to-speech narration is not part of this model. No narration code
  appears in `js/script.js`.
- Touch coordinates are exact reals. Floating-point rounding of `screenX`
  and the difference `-0` versus `0` from JavaScript's `%` are not modelled,
  since `slides[-0]` is `slides[0]`. Indices are integers, because every
  caller passes one.
- `DOMContentLoaded` fires once, so the model does not re-run
  initialisation.
- Slider.StartAutoSlide: "exactly one interval armed" is proved only when
  the timer is consistent. That means the host arms the held interval and
  no other. An interval the script had already lost track of stays armed,
  exactly as in the code. Every state the page reaches is consistent.

=== FILE: gestures.dfy ===
/**
 * User gestures that move the slider: a horizontal touch swipe on the slider
 * and the arrow keys anywhere on the page.
 */
module Gestures {
  import opened Slider

  /** A swipe must move strictly more than this many pixels to count. */
  const SwipeThreshold: real := 50.0

  /**
   * `handleSwipe`'s classification of a touch from `touchStartX` to
   * `touchEndX`: +1 (next) for a leftward swipe, -1 (previous) for a
   * rightward one, 0 when the displacement is at most the threshold.
   */
  function SwipeDirection(touchStartX: real, touchEndX: real): (direction: int)
    ensures direction == 1 <==> touchStartX - touchEndX > SwipeThreshold
    ensures direction == -1 <==> touchEndX - touchStartX > SwipeThreshold
    ensures direction == 0 <==> -SwipeThreshold <= touchStartX - touchEndX <= SwipeThreshold
  {
    var diff := touchStartX - touchEndX;
    var magnitude := if diff < 0.0 then -diff else diff;
    if magnitude > SwipeThreshold then
      if diff > 0.0 then 1 else -1
    else 0
  }

  /** `handleSwipe`: change slide when the swipe is long enough, otherwise nothing. */
  function HandleSwipe(c: SliderState, touchStartX: real, touchEndX: real): (r: Outcome<SliderState>)
    ensures touchStartX - touchEndX > SwipeThreshold ==> r == ChangeSlide(c, 1)
    ensures touchEndX - touchStartX > SwipeThreshold ==> r == ChangeSlide(c, -1)
    ensures -SwipeThreshold <= touchStartX - touchEndX <= SwipeThreshold ==> r == Completed(c)
  {
    var direction := SwipeDirection(touchStartX, touchEndX);
    if direction != 0 then ChangeSlide(c, direction) else Completed(c)
  }

  /** The keydown listener's mapping from `e.key` to a slide step (0: no call). */
  function KeyDirection(key: string): (direction: int)
    ensures direction == -1 <==> key == "ArrowLeft"
    ensures direction == 1 <==> key == "ArrowRight"
    ensures direction == 0 <==> key != "ArrowLeft" && key != "ArrowRight"
  {
    if key == "ArrowLeft" then -1
    else if key == "ArrowRight" then 1
    else 0
  }

  /** The page-wide keydown listener. */
  function OnKeyDown(c: SliderState, key: string): (r: Outcome<SliderState>)
    ensures key == "ArrowLeft" ==> r == ChangeSlide(c, -1)
    ensures key == "ArrowRight" ==> r == ChangeSlide(c, 1)
    ensures key != "ArrowLeft" && key != "ArrowRight" ==> r == Completed(c)
  {
    var direction := KeyDirection(key);
    if direction != 0 then ChangeSlide(c, direction) else Completed(c)
  }

  /** Swapping start and end of a swipe reverses its direction. */
  lemma SwipeAntisymmetric(a: real, b: real)
    ensures SwipeDirection(b, a) == -SwipeDirection(a, b)
  {
  }

  /** The threshold is strict: 49 or exactly 50 pixels do nothing, 51 pixels move one slide. */
  lemma SwipeThresholdIsStrict(c: SliderState, x: real)
    ensures HandleSwipe(c, x + 49.0, x) == Completed(c)
    ensures HandleSwipe(c, x, x + 49.0) == Completed(c)
    ensures HandleSwipe(c, x + 50.0, x) == Completed(c)
    ensures HandleSwipe(c, x, x + 50.0) == Completed(c)
    ensures HandleSwipe(c, x + 51.0, x) == ChangeSlide(c, 1)
    ensures HandleSwipe(c, x, x + 51.0) == ChangeSlide(c, -1)
  {
  }

  /**
   * From a valid slider, every swipe and every key press completes without a
   * TypeError and keeps exactly one slide and one dot active at the index.
   */
  lemma GesturesPreserveValid(c: SliderState, touchStartX: real, touchEndX: real, key: string)
    requires Valid(c)
    ensures HandleSwipe(c, touchStartX, touchEndX).Completed?
    ensures Valid(HandleSwipe(c, touchStartX, touchEndX).state)
    ensures OnKeyDown(c, key).Completed?
    ensures Valid(OnKeyDown(c, key).state)
  {
    var d := SwipeDirection(touchStartX, touchEndX);
    if d != 0 {
      ChangeSlidePreservesValid(c, d);
    }
    var k := KeyDirection(key);
    if k != 0 {
      ChangeSlidePreservesValid(c, k);
    }
  }
}

=== FILE: js_numbers.dfy ===
/**
 * JavaScript number arithmetic used by the slider.
 *
 * Dafny's `%` on `int` is Euclidean: the remainder is never negative.
 * JavaScript's `%` truncates the quotient toward zero, so the remainder takes
 * the sign of the dividend: `-6 % 5` is `-1` in JavaScript but `4` in Dafny.
 * The slider's wrap-around (`(index + slides.length) % slides.length`) is only
 * a true modulo when its dividend is not negative, and this module says
 * exactly when.
 */
module JsNumbers {

  /** JavaScript's remainder operator `a % n` for a positive divisor. */
  function JsRem(a: int, n: int): (r: int)
    requires n > 0
    ensures a >= 0 ==> 0 <= r < n
    ensures a < 0 ==> -n < r <= 0
    ensures (a - r) % n == 0
    ensures r == 0 <==> a % n == 0
  {
    if a >= 0 then
      ModUnique(a - a % n, n, a / n, 0);
      a % n
    else
      NegateMultiple(-a, n);
      -((-a) % n)
  }

  /** Dafny's `%` is determined by any decomposition `x == q * n + r` with `0 <= r < n`. */
  lemma ModUnique(x: int, n: int, q: int, r: int)
    requires n > 0
    requires 0 <= r < n
    requires x == q * n + r
    ensures x % n == r
    ensures x / n == q
  {
    var q' := x / n;
    var r' := x % n;
    assert q * n - q' * n == (q - q') * n;
    SmallMultipleIsZero(q - q', n);
  }

  /** The only multiple of `n` strictly between `-n` and `n` is zero. */
  lemma SmallMultipleIsZero(d: int, n: int)
    requires n > 0
    requires -n < d * n < n
    ensures d == 0
  {
    if d > 0 {
      MultipleAtLeast(d, n);
    } else if d < 0 {
      MultipleAtLeast(-d, n);
    }
  }

  lemma MultipleAtLeast(d: int, n: int)
    requires d > 0 && n > 0
    ensures d * n >= n
  {
    assert d * n == (d - 1) * n + n;
  }

  /** Negating a number keeps its remainder modulo `n` zero or non-zero, and the
      truncated remainder of a negative number differs from it by a multiple of `n`. */
  lemma NegateMultiple(b: int, n: int)
    requires n > 0
    ensures (-b) % n == 0 <==> b % n == 0
    ensures (-b + b % n) % n == 0
  {
    var q := b / n;
    var r := b % n;
    assert b == q * n + r;
    ModUnique(-b + r, n, -q, 0);
    if r == 0 {
      ModUnique(-b, n, -q, 0);
    } else {
      ModUnique(-b, n, -q - 1, n - r);
    }
  }

  /** Adding `d` commutes with reduction modulo `n`. */
  lemma ModAddMod(a: int, d: int, n: int)
    requires n > 0
    ensures ((a % n) + d) % n == (a + d) % n
  {
    var m := a % n + d;
    assert a == (a / n) * n + a % n;
    assert m == (m / n) * n + m % n;
    assert a + d == (a / n + m / n) * n + m % n;
    ModUnique(a + d, n, a / n + m / n, m % n);
  }

  /**
   * The slider's wrap-around `(index + n) % n`, with JavaScript's operator, is
   * the true (Euclidean) residue of `index` when `index >= -n` and when `n`
   * divides `index` (JavaScript's `-0` indexes like `0`); otherwise it is negative.
   */
  lemma WrapIndex(index: int, n: int)
    requires n > 0
    ensures index >= -n ==> JsRem(index + n, n) == index % n
    ensures JsRem(index + n, n) < 0 <==> index < -n && index % n != 0
  {
    ModAddMod(index, n, n);
    ModAddMod(index, 0, n);
    ModUnique(n, n, 1, 0);
    assert (index % n + n) % n == index % n by {
      ModUnique(index % n + n, n, 1, index % n);
    }
  }
}

=== FILE: page_events.dfy ===
/**
 * The page as a whole: what `DOMContentLoaded` sets up, and how each later
 * event (an interval tick, a key press, a dot click, hovering, a touch, an
 * intersection report) changes the state. The markup the script finds is a
 * parameter, and so is every handle the host returns from `setInterval`.
 */
module PageEvents {
  import opened Wrappers
  import opened JsNumbers
  import opened Slider
  import opened Gestures
  import opened ScrollReveal

  /** What the script queries from the document. */
  datatype Markup = Markup(
    slideFlags: seq<bool>,        // `.slide` elements, `true` where marked `active`
    hasDotsContainer: bool,       // `.slider-dots`
    hasSliderContainer: bool,     // `.slider-container` (hover pause)
    hasSlider: bool,              // `.slider` (touch swipe)
    workCards: set<ElementId>,    // `.work-card`
    videoCards: set<ElementId>)   // `.video-card`

  /**
   * The script's state: the slider globals, which optional listeners were
   * registered, the swipe closure's two coordinates, the cards the observer
   * watches and the cards marked `visible`.
   */
  datatype Page = Page(
    slider: SliderState,
    pauseOnHover: bool,
    swipeEnabled: bool,
    touchStartX: real,
    touchEndX: real,
    observed: set<ElementId>,
    visible: set<ElementId>)

  datatype Event =
    | Tick(id: TimerId)
    | KeyDown(key: string)
    | DotClick(index: nat)
    | MouseEnter
    | MouseLeave(handle: TimerId)   // `handle`: what `setInterval` returns when re-arming
    | TouchStart(screenX: real)
    | TouchEnd(screenX: real)
    | Intersections(entries: seq<Entry>)

  /** The globals as the script declares them, before the document is ready. */
  const BeforeLoad: Page :=
    Page(SliderState(None, None, 0, AutoSlide(None, {})), false, false, 0.0, 0.0, {}, {})

  /** The page's markup marks the first slide, and only it, as active. */
  predicate MarkupMarksFirstSlide(m: Markup)
  {
    |m.slideFlags| == 0 || OneActiveAt(m.slideFlags, 0)
  }

  /**
   * `initSlider`: always remember the slides; give up when there are none or
   * no dots container; otherwise create one dot per slide with only dot 0
   * active, start the auto-advance with the host's `handle`, and register
   * the hover and touch listeners where their elements exist.
   */
  function InitSlider(p: Page, m: Markup, handle: TimerId): (r: Page)
    ensures r.slider.slides == Some(m.slideFlags)
    ensures r.slider.current == p.slider.current
    ensures r.observed == p.observed && r.visible == p.visible
    ensures |m.slideFlags| == 0 || !m.hasDotsContainer ==>
              r == p.(slider := p.slider.(slides := Some(m.slideFlags)))
    ensures |m.slideFlags| > 0 && m.hasDotsContainer ==>
              && r.slider.dots.Some?
              && |r.slider.dots.value| == |m.slideFlags|
              && OneActiveAt(r.slider.dots.value, 0)
              && r.slider.timer.interval == Some(handle)
              && (forall id :: id in r.slider.timer.armed <==>
                    id == handle || (id in p.slider.timer.armed && p.slider.timer.interval != Some(id)))
              && (TimerConsistent(p.slider.timer) ==> r.slider.timer.armed == {handle})
              && r.pauseOnHover == m.hasSliderContainer
              && r.swipeEnabled == m.hasSlider
              && r.touchStartX == 0.0 && r.touchEndX == 0.0
  {
    var withSlides := p.slider.(slides := Some(m.slideFlags));
    if |m.slideFlags| == 0 || !m.hasDotsContainer then p.(slider := withSlides)
    else
      var dots := seq(|m.slideFlags|, i => i == 0);
      var slider := withSlides.(dots := Some(dots), timer := StartAutoSlide(withSlides.timer, handle));
      p.(slider := slider, pauseOnHover := m.hasSliderContainer, swipeEnabled := m.hasSlider,
         touchStartX := 0.0, touchEndX := 0.0)
  }

  /** `initScrollAnimations`: observe every work card and every video card. */
  function InitScrollAnimations(p: Page, m: Markup): (r: Page)
    ensures forall e :: e in r.observed <==> e in p.observed || e in m.workCards || e in m.videoCards
    ensures r == p.(observed := r.observed)
  {
    p.(observed := p.observed + m.workCards + m.videoCards)
  }

  /** The `DOMContentLoaded` listener. */
  function DomContentLoaded(m: Markup, handle: TimerId): (r: Page)
    ensures r.slider.slides == Some(m.slideFlags)
    ensures r.slider.current == 0
    ensures r.observed == m.workCards + m.videoCards
    ensures r.visible == {}
    ensures |m.slideFlags| > 0 && m.hasDotsContainer ==>
              && r.slider.timer == AutoSlide(Some(handle), {handle})
              && r.slider.dots == Some(seq(|m.slideFlags|, i => i == 0))
    ensures |m.slideFlags| == 0 || !m.hasDotsContainer ==>
              && r.slider.dots.None?
              && r.slider.timer == AutoSlide(None, {})
              && !r.pauseOnHover && !r.swipeEnabled
  {
    InitScrollAnimations(InitSlider(BeforeLoad, m, handle), m)
  }

  function WithSlider(p: Page, o: Outcome<SliderState>): (r: Outcome<Page>)
    ensures r.Completed? <==> o.Completed?
    ensures r.state == p.(slider := o.state)
  {
    match o
    case Completed(s) => Completed(p.(slider := s))
    case Threw(s) => Threw(p.(slider := s))
  }

  /** One event delivered to the page's listeners. */
  function Dispatch(p: Page, e: Event): (r: Outcome<Page>)
    ensures r.state.observed == p.observed
    ensures p.visible <= r.state.visible
    ensures !e.Intersections? ==> r.state.visible == p.visible
    ensures e.Tick? && e.id !in p.slider.timer.armed ==> r == Completed(p)
    ensures e.MouseEnter? && p.pauseOnHover ==> r.state.slider.timer.interval.None?
    ensures e.MouseLeave? && p.pauseOnHover ==> r.state.slider.timer.interval == Some(e.handle)
    ensures (e.MouseEnter? || e.MouseLeave?) && !p.pauseOnHover ==> r == Completed(p)
    ensures (e.TouchStart? || e.TouchEnd?) && !p.swipeEnabled ==> r == Completed(p)
    ensures !HasSlides(p.slider) && (e.KeyDown? || e.Tick? || e.DotClick?) ==> r == Completed(p)
  {
    match e
    case Tick(id) =>
      if id in p.slider.timer.armed then WithSlider(p, ChangeSlide(p.slider, 1)) else Completed(p)
    case KeyDown(key) =>
      WithSlider(p, OnKeyDown(p.slider, key))
    case DotClick(index) =>
      if p.slider.dots.Some? && index < |p.slider.dots.value| then WithSlider(p, GoToSlide(p.slider, index))
      else Completed(p)
    case MouseEnter =>
      if p.pauseOnHover then Completed(p.(slider := p.slider.(timer := StopAutoSlide(p.slider.timer))))
      else Completed(p)
    case MouseLeave(handle) =>
      if p.pauseOnHover then Completed(p.(slider := p.slider.(timer := StartAutoSlide(p.slider.timer, handle))))
      else Completed(p)
    case TouchStart(x) =>
      if p.swipeEnabled then Completed(p.(touchStartX := x)) else Completed(p)
    case TouchEnd(x) =>
      if p.swipeEnabled then WithSlider(p.(touchEndX := x), HandleSwipe(p.slider, p.touchStartX, x))
      else Completed(p)
    case Intersections(entries) =>
      Completed(p.(visible := Reveal(p.visible, entries)))
  }

  /**
   * A sequence of events. An exception escaping a listener does not stop the
   * page: later events still run on whatever state it left. The outcome is
   * `Threw` when any listener threw.
   */
  function Run(p: Page, events: seq<Event>): Outcome<Page>
    decreases |events|
  {
    if |events| == 0 then Completed(p)
    else
      var first := Dispatch(p, events[0]);
      var rest := Run(first.state, events[1..]);
      if first.Threw? then Threw(rest.state) else rest
  }

  /** The slider is consistent and only observed cards are visible. */
  predicate Valid(p: Page)
  {
    Slider.Valid(p.slider) && p.visible <= p.observed
  }

  /** The host reports intersections only for cards the observer watches. */
  predicate Delivered(observed: set<ElementId>, e: Event)
  {
    e.Intersections? ==> forall j :: 0 <= j < |e.entries| ==> e.entries[j].target in observed
  }

  /**
   * Loading a page whose markup marks the first slide active establishes the
   * invariant; in particular dot 0 and slide 0 are the active pair.
   */
  lemma LoadEstablishesValid(m: Markup, handle: TimerId)
    requires MarkupMarksFirstSlide(m)
    ensures Valid(DomContentLoaded(m, handle))
    ensures |m.slideFlags| > 0 ==> DomContentLoaded(m, handle).slider.current == 0
  {
  }

  /**
   * Every single event on a valid page completes without a TypeError and
   * leaves the page valid: exactly one slide and one dot active, at the same
   * index, at most the one held interval armed, visible cards only growing.
   */
  lemma DispatchPreservesValid(p: Page, e: Event)
    requires Valid(p)
    requires Delivered(p.observed, e)
    ensures Dispatch(p, e).Completed?
    ensures Valid(Dispatch(p, e).state)
  {
    match e
    case Tick(id) =>
      ChangeSlidePreservesValid(p.slider, 1);
    case KeyDown(key) =>
      GesturesPreserveValid(p.slider, 0.0, 0.0, key);
    case DotClick(index) =>
      GoToSlidePreservesValid(p.slider, index);
    case MouseEnter =>
    case MouseLeave(handle) =>
    case TouchStart(x) =>
    case TouchEnd(x) =>
      GesturesPreserveValid(p.slider, p.touchStartX, x, "");
    case Intersections(entries) =>
      RevealStaysObserved(p.visible, p.observed, entries);
  }

  /**
   * Over any run of delivered events from a valid page, no listener throws,
   * the page stays valid and a card once visible stays visible.
   */
  lemma {:induction false} RunPreservesValid(p: Page, events: seq<Event>)
    requires Valid(p)
    requires forall i :: 0 <= i < |events| ==> Delivered(p.observed, events[i])
    ensures Run(p, events).Completed?
    ensures Valid(Run(p, events).state)
    ensures p.visible <= Run(p, events).state.visible
    ensures Run(p, events).state.observed == p.observed
    decreases |events|
  {
    if |events| > 0 {
      var first := Dispatch(p, events[0]);
      DispatchPreservesValid(p, events[0]);
      assert forall i :: 0 <= i < |events[1..]| ==> events[1..][i] == events[i + 1];
      RunPreservesValid(first.state, events[1..]);
    }
  }

  /**
   * Which listener each event reaches: keys go to the keydown listener, a
   * touch start stores its coordinate and a touch end classifies the swipe
   * from the stored start to its own coordinate, intersection reports go to
   * the observer callback; with the hover listeners, entering the slider is
   * `stopAutoSlide` and leaving it is `startAutoSlide`; a tick of an armed
   * interval is `changeSlide(1)` and a click on an existing dot is `goToSlide`.
   */
  lemma DispatchWiring(p: Page, e: Event)
    ensures e.KeyDown? ==> Dispatch(p, e) == WithSlider(p, OnKeyDown(p.slider, e.key))
    ensures e.TouchStart? && p.swipeEnabled ==> Dispatch(p, e) == Completed(p.(touchStartX := e.screenX))
    ensures e.TouchEnd? && p.swipeEnabled ==>
              Dispatch(p, e) == WithSlider(p.(touchEndX := e.screenX), HandleSwipe(p.slider, p.touchStartX, e.screenX))
    ensures e.Intersections? ==> Dispatch(p, e) == Completed(p.(visible := Reveal(p.visible, e.entries)))
    ensures e.MouseEnter? && p.pauseOnHover ==>
              Dispatch(p, e) == Completed(p.(slider := p.slider.(timer := StopAutoSlide(p.slider.timer))))
    ensures e.MouseLeave? && p.pauseOnHover ==>
              Dispatch(p, e) == Completed(p.(slider := p.slider.(timer := StartAutoSlide(p.slider.timer, e.handle))))
    ensures e.Tick? && e.id in p.slider.timer.armed ==> Dispatch(p, e) == WithSlider(p, ChangeSlide(p.slider, 1))
    ensures e.DotClick? && p.slider.dots.Some? && e.index < |p.slider.dots.value| ==>
              Dispatch(p, e) == WithSlider(p, GoToSlide(p.slider, e.index))
  {
  }

  /** A touch from `start` to `end` on a swipe-enabled page moves as `handleSwipe` classifies it. */
  lemma SwipeAcrossTouches(p: Page, start: real, end: real)
    requires p.swipeEnabled
    ensures var afterEnd := Dispatch(Dispatch(p, TouchStart(start)).state, TouchEnd(end));
      && afterEnd.state.touchStartX == start
      && afterEnd.state.touchEndX == end
      && (start - end > SwipeThreshold ==> afterEnd.state.slider == ChangeSlide(p.slider, 1).state)
      && (end - start > SwipeThreshold ==> afterEnd.state.slider == ChangeSlide(p.slider, -1).state)
      && (-SwipeThreshold <= start - end <= SwipeThreshold ==> afterEnd == Completed(p.(touchStartX := start, touchEndX := end)))
  {
  }

  /** An armed interval's tick moves a valid slider one slide forward, wrapping at the end. */
  lemma TickAdvances(p: Page, id: TimerId)
    requires Valid(p) && HasSlides(p.slider)
    requires id in p.slider.timer.armed
    ensures Dispatch(p, Tick(id)).Completed?
    ensures Dispatch(p, Tick(id)).state.slider.current ==
              if p.slider.current == SlideCount(p.slider) - 1 then 0 else p.slider.current + 1
  {
    var n := SlideCount(p.slider);
    ChangeSlidePreservesValid(p.slider, 1);
    if p.slider.current == n - 1 {
      ModUnique(n, n, 1, 0);
    } else {
      ModUnique(p.slider.current + 1, n, 0, p.slider.current + 1);
    }
  }

  /** Clicking dot `i` of a valid slider makes slide `i` and dot `i` the active pair. */
  lemma DotClickSelects(p: Page, i: nat)
    requires Valid(p) && HasSlides(p.slider) && p.slider.dots.Some?
    requires i < |p.slider.dots.value|
    ensures Dispatch(p, DotClick(i)).Completed?
    ensures Dispatch(p, DotClick(i)).state.slider.current == i
    ensures Dispatch(p, DotClick(i)).state.slider.slides.value[i]
    ensures Dispatch(p, DotClick(i)).state.slider.dots.value[i]
  {
    ModUnique(i, SlideCount(p.slider), 0, i);
  }

  /** Key presses before the document is ready find no slides and do nothing. */
  lemma KeysBeforeLoadDoNothing(key: string)
    ensures Dispatch(BeforeLoad, KeyDown(key)) == Completed(BeforeLoad)
  {
  }
}

=== FILE: scroll_reveal.dfy ===
/**
 * The scroll-reveal rule: the intersection observer's callback adds the
 * `visible` class to every target that is intersecting. The observer's
 * geometry (the 10% threshold) is the browser's; the model receives its
 * verdict as each entry's `isIntersecting`.
 */
module ScrollReveal {

  /** An observed card element. */
  type ElementId = nat

  datatype Entry = Entry(target: ElementId, isIntersecting: bool)

  /** Some entry reports `t` as intersecting. */
  ghost predicate ReportedIntersecting(entries: seq<Entry>, t: ElementId)
  {
    exists j :: 0 <= j < |entries| && entries[j] == Entry(t, true)
  }

  /**
   * The observer callback, entry by entry: the elements carrying `visible`
   * afterwards are those that carried it before plus the intersecting targets.
   */
  function Reveal(visible: set<ElementId>, entries: seq<Entry>): (r: set<ElementId>)
    ensures visible <= r
    ensures forall j :: 0 <= j < |entries| && entries[j].isIntersecting ==> entries[j].target in r
    ensures forall t :: t in r ==> t in visible || ReportedIntersecting(entries, t)
    decreases |entries|
  {
    if |entries| == 0 then visible
    else
      var e := entries[0];
      var rest := Reveal(if e.isIntersecting then visible + {e.target} else visible, entries[1..]);
      assert forall t :: ReportedIntersecting(entries[1..], t) ==> ReportedIntersecting(entries, t) by {
        forall t | ReportedIntersecting(entries[1..], t)
          ensures ReportedIntersecting(entries, t)
        {
          var j :| 0 <= j < |entries[1..]| && entries[1..][j] == Entry(t, true);
          assert entries[j + 1] == Entry(t, true);
        }
      }
      assert forall j :: 1 <= j < |entries| ==> entries[j] == entries[1..][j - 1];
      rest
  }

  /** Running the callback again on the same entries changes nothing. */
  lemma RevealIdempotent(visible: set<ElementId>, entries: seq<Entry>)
    ensures Reveal(Reveal(visible, entries), entries) == Reveal(visible, entries)
  {
    var once := Reveal(visible, entries);
    var twice := Reveal(once, entries);
    forall t | t in twice ensures t in once {
      if ReportedIntersecting(entries, t) {
        var j :| 0 <= j < |entries| && entries[j] == Entry(t, true);
      }
    }
  }

  /** Entries that are not intersecting never add or remove `visible`. */
  lemma RevealIgnoresNonIntersecting(visible: set<ElementId>, entries: seq<Entry>)
    requires forall j :: 0 <= j < |entries| ==> !entries[j].isIntersecting
    ensures Reveal(visible, entries) == visible
  {
  }

  /** A larger visible set stays larger after the same callback. */
  lemma RevealMonotone(small: set<ElementId>, large: set<ElementId>, entries: seq<Entry>)
    requires small <= large
    ensures Reveal(small, entries) <= Reveal(large, entries)
  {
    forall t | t in Reveal(small, entries) ensures t in Reveal(large, entries) {
      if ReportedIntersecting(entries, t) {
        var j :| 0 <= j < |entries| && entries[j] == Entry(t, true);
      }
    }
  }

  /** If the observer only reports observed cards, only observed cards become visible. */
  lemma RevealStaysObserved(visible: set<ElementId>, observed: set<ElementId>, entries: seq<Entry>)
    requires visible <= observed
    requires forall j :: 0 <= j < |entries| ==> entries[j].target in observed
    ensures Reveal(visible, entries) <= observed
  {
    forall t | t in Reveal(visible, entries) ensures t in observed {
      if ReportedIntersecting(entries, t) {
        var j :| 0 <= j < |entries| && entries[j] == Entry(t, true);
      }
    }
  }
}

=== FILE: slider.dfy ===
/**
 * The image slider of the village page, abstracted away from the DOM.
 *
 * The script keeps four globals: `currentSlide`, the node list `slides`, the
 * node list `dots` and the interval handle `slideInterval`. Here a slide or a
 * dot is just its `active` class flag, so the two node lists become optional
 * sequences of booleans (`None` while the script has not queried them yet).
 * The auto-advance timer is the handle the script holds together with the set
 * of intervals the host still has armed for it.
 */
module Slider {
  import opened Wrappers
  import opened JsNumbers

  /** An interval handle. Hosts hand out positive integers, so a handle is
      always truthy and `if (slideInterval)` tests only whether one is held. */
  type TimerId = n: nat | n > 0 witness 1

  /** `slideInterval` and the intervals the host will still fire for the script. */
  datatype AutoSlide = AutoSlide(interval: Option<TimerId>, armed: set<TimerId>)

  datatype SliderState = SliderState(
    slides: Option<seq<bool>>,
    dots: Option<seq<bool>>,
    current: int,
    timer: AutoSlide)

  /**
   * How a handler ended. `Threw` means a TypeError escaped it (reading
   * `classList` of a missing slide); `state` is what the handler had already
   * changed by then, which the page keeps.
   */
  datatype Outcome<S> = Completed(state: S) | Threw(state: S)

  /** The number of slides the script has found (zero before it looked). */
  function SlideCount(c: SliderState): nat
  {
    if c.slides.Some? then |c.slides.value| else 0
  }

  predicate HasSlides(c: SliderState)
  {
    SlideCount(c) > 0
  }

  /** Exactly one flag is set, and it is the one at `k`. */
  predicate OneActiveAt(flags: seq<bool>, k: int)
  {
    && 0 <= k < |flags|
    && forall i :: 0 <= i < |flags| ==> (flags[i] <==> i == k)
  }

  /** The number of set flags; the counting reading of "exactly one active", used by `ValidMeansExactlyOneActive`. */
  function ActiveCount(flags: seq<bool>): (r: nat)
    ensures r <= |flags|
  {
    if |flags| == 0 then 0
    else (if flags[0] then 1 else 0) + ActiveCount(flags[1..])
  }

  /**
   * `after` is `before` with the flag at `from` cleared and the flag at `to`
   * set, where those positions exist, and every other flag left alone.
   */
  predicate MovedActive(before: seq<bool>, after: seq<bool>, from: int, to: int)
  {
    && |after| == |before|
    && (0 <= to < |after| ==> after[to])
    && (0 <= from < |after| && from != to ==> !after[from])
    && forall i :: 0 <= i < |before| && i != from && i != to ==> after[i] == before[i]
  }

  /** The slide flags, the dot flags and the index agree; the timer is consistent. */
  predicate Valid(c: SliderState)
  {
    && TimerConsistent(c.timer)
    && (HasSlides(c) ==>
          && OneActiveAt(c.slides.value, c.current)
          && (c.dots.Some? ==>
                |c.dots.value| == |c.slides.value| && OneActiveAt(c.dots.value, c.current)))
  }

  // ---------------------------------------------------------------------------
  // Auto-advance timer

  /** The host arms exactly the interval the script holds, or none. */
  predicate TimerConsistent(t: AutoSlide)
  {
    t.armed == if t.interval.Some? then {t.interval.value} else {}
  }

  /** `stopAutoSlide`: clear the held interval, if any, and forget its handle. */
  function StopAutoSlide(t: AutoSlide): (r: AutoSlide)
    ensures r.interval.None?
    ensures forall id :: id in r.armed <==> id in t.armed && t.interval != Some(id)
    ensures t.interval.None? ==> r == t
    ensures TimerConsistent(t) ==> TimerConsistent(r) && r.armed == {}
  {
    match t.interval
    case Some(id) => AutoSlide(None, t.armed - {id})
    case None => t
  }

  /**
   * `startAutoSlide`: stop first, then arm a new interval whose handle the
   * host returns as `handle`.
   */
  function StartAutoSlide(t: AutoSlide, handle: TimerId): (r: AutoSlide)
    ensures r.interval == Some(handle)
    ensures forall id :: id in r.armed <==> id == handle || (id in t.armed && t.interval != Some(id))
    ensures TimerConsistent(t) ==> TimerConsistent(r) && r.armed == {handle}
  {
    var stopped := StopAutoSlide(t);
    stopped.(interval := Some(handle), armed := stopped.armed + {handle})
  }

  // ---------------------------------------------------------------------------
  // Moving between slides

  /** `if (dots && dots[i]) dots[i].classList.add/remove('active')`: a helper of `GoToSlide`. */
  function SetDot(dots: Option<seq<bool>>, i: int, on: bool): (r: Option<seq<bool>>)
    ensures r.Some? <==> dots.Some?
    ensures dots.Some? ==> |r.value| == |dots.value|
    ensures dots.Some? ==> forall j :: 0 <= j < |dots.value| ==>
              r.value[j] == if j == i then on else dots.value[j]
  {
    if dots.Some? && 0 <= i < |dots.value| then Some(dots.value[i := on]) else dots
  }

  /**
   * `goToSlide(index)`: deactivate the current slide and dot, wrap `index`
   * with `(index + N) % N` under JavaScript's `%`, activate the slide and dot
   * there. Without slides it does nothing. The wrap is a true modulo for
   * `index >= -N` and for every multiple of `N`; for any other `index < -N`
   * the new index is negative and reading `slides[currentSlide].classList`
   * throws after the old flags were cleared.
   */
  function GoToSlide(c: SliderState, index: int): (r: Outcome<SliderState>)
    ensures r.state.timer == c.timer
    ensures !HasSlides(c) ==> r == Completed(c)
    ensures HasSlides(c) && !(0 <= c.current < SlideCount(c)) ==> r == Threw(c)
    ensures HasSlides(c) ==>
              && r.state.slides.Some?
              && |r.state.slides.value| == SlideCount(c)
              && (r.state.dots.Some? <==> c.dots.Some?)
              && (c.dots.Some? ==> |r.state.dots.value| == |c.dots.value|)
    ensures HasSlides(c) ==>
              (r.Threw? <==>
                 !(0 <= c.current < SlideCount(c))
                 || (index + SlideCount(c) < 0 && index % SlideCount(c) != 0))
    ensures HasSlides(c) && 0 <= c.current < SlideCount(c) && index + SlideCount(c) >= 0 ==>
              r.state.current == index % SlideCount(c)
    ensures HasSlides(c) && 0 <= c.current < SlideCount(c) && r.Threw? ==>
              && r.state.current == JsRem(index + SlideCount(c), SlideCount(c))
              && r.state.current < 0
              && !r.state.slides.value[c.current]
              && (c.dots.Some? && c.current < |c.dots.value| ==> !r.state.dots.value[c.current])
    ensures HasSlides(c) && 0 <= c.current < SlideCount(c) ==>
              && MovedActive(c.slides.value, r.state.slides.value, c.current, r.state.current)
              && (c.dots.Some? ==>
                    MovedActive(c.dots.value, r.state.dots.value, c.current, r.state.current))
    ensures r.Completed? && HasSlides(c) ==>
              && 0 <= r.state.current < SlideCount(c)
              && MovedActive(c.slides.value, r.state.slides.value, c.current, r.state.current)
              && (c.dots.Some? ==>
                    MovedActive(c.dots.value, r.state.dots.value, c.current, r.state.current))
  {
    if !HasSlides(c) then Completed(c)
    else
      var n := |c.slides.value|;
      if !(0 <= c.current < n) then Threw(c)
      else
        var slides := c.slides.value[c.current := false];
        var dots := SetDot(c.dots, c.current, false);
        WrapIndex(index, n);
        var k := JsRem(index + n, n);
        if k < 0 then Threw(c.(slides := Some(slides), dots := dots, current := k))
        else Completed(c.(slides := Some(slides[k := true]), dots := SetDot(dots, k, true), current := k))
  }

  /** `changeSlide(direction)`: go to the slide `direction` steps away. */
  function ChangeSlide(c: SliderState, direction: int): (r: Outcome<SliderState>)
    ensures r.state.timer == c.timer
    ensures !HasSlides(c) ==> r == Completed(c)
    ensures HasSlides(c) && 0 <= c.current < SlideCount(c) && direction >= -1 ==>
              && r.Completed?
              && r.state.current == (c.current + direction) % SlideCount(c)
  {
    GoToSlide(c, c.current + direction)
  }

  // ---------------------------------------------------------------------------
  // Lemmas

  /** Starting twice in a row leaves only the second interval armed. */
  lemma StartTwiceArmsOne(t: AutoSlide, first: TimerId, second: TimerId)
    requires TimerConsistent(t)
    ensures StartAutoSlide(StartAutoSlide(t, first), second).armed == {second}
  {
  }

  /** Stopping is idempotent, and a no-op when nothing is held. */
  lemma StopIdempotent(t: AutoSlide)
    ensures StopAutoSlide(StopAutoSlide(t)) == StopAutoSlide(t)
    ensures t.interval.None? ==> StopAutoSlide(t) == t
  {
  }

  /** The index wraps: one before the first slide is the last, one past the last is the first. */
  lemma GoToSlideWraps(c: SliderState)
    requires HasSlides(c) && 0 <= c.current < SlideCount(c)
    ensures GoToSlide(c, -1).state.current == SlideCount(c) - 1
    ensures GoToSlide(c, SlideCount(c)).state.current == 0
  {
    var n := SlideCount(c);
    ModUnique(-1, n, -1, n - 1);
    ModUnique(n, n, 1, 0);
  }

  /** On five slides from slide 0, index -1 resolves to 4, index 7 to 2, and index -10 (a multiple of 5) to 0. */
  lemma FiveSlideExamples(c: SliderState)
    requires c.slides.Some? && |c.slides.value| == 5 && c.current == 0
    ensures GoToSlide(c, -1) == Completed(GoToSlide(c, -1).state)
    ensures GoToSlide(c, -1).state.current == 4
    ensures GoToSlide(c, 7).state.current == 2
    ensures GoToSlide(c, -7).Threw? && GoToSlide(c, -7).state.current == -2
    ensures GoToSlide(c, -10).Completed? && GoToSlide(c, -10).state.current == 0
  {
  }

  /**
   * From a valid state, `goToSlide` with `index >= -N` completes and keeps the
   * state valid: exactly one slide and, if dots exist, exactly one dot are
   * active, both at the new index `index mod N`.
   */
  lemma GoToSlidePreservesValid(c: SliderState, index: int)
    requires Valid(c)
    requires HasSlides(c) ==> index + SlideCount(c) >= 0
    ensures GoToSlide(c, index).Completed?
    ensures Valid(GoToSlide(c, index).state)
    ensures HasSlides(c) ==> GoToSlide(c, index).state.current == index % SlideCount(c)
  {
    var r := GoToSlide(c, index).state;
    if HasSlides(c) {
      var before := c.slides.value;
      var after := r.slides.value;
      forall i | 0 <= i < |after|
        ensures after[i] <==> i == r.current
      {
        if i != c.current && i != r.current {
          assert after[i] == before[i];
        }
      }
      if c.dots.Some? {
        var d0 := c.dots.value;
        var d1 := r.dots.value;
        forall i | 0 <= i < |d1|
          ensures d1[i] <==> i == r.current
        {
          if i != c.current && i != r.current {
            assert d1[i] == d0[i];
          }
        }
      }
    }
  }

  /** `changeSlide(d)` from a valid state, for `d >= -1`, completes and stays valid. */
  lemma ChangeSlidePreservesValid(c: SliderState, direction: int)
    requires Valid(c)
    requires direction >= -1
    ensures ChangeSlide(c, direction).Completed?
    ensures Valid(ChangeSlide(c, direction).state)
  {
    GoToSlidePreservesValid(c, c.current + direction);
  }

  /**
   * One `changeSlide` step from a valid state, with everything a repeated
   * step needs to know about the state it reaches.
   */
  lemma ChangeSlideStep(c: SliderState, direction: int)
    requires Valid(c)
    requires direction >= -1
    ensures var next := ChangeSlide(c, direction).state;
      && Valid(next)
      && (next.dots.Some? <==> c.dots.Some?)
      && next.timer == c.timer
      && (HasSlides(c) ==>
            && SlideCount(next) == SlideCount(c)
            && next.current == (c.current + direction) % SlideCount(c))
  {
    ChangeSlidePreservesValid(c, direction);
  }

  /** A flag sequence with no flag set counts zero, and conversely (a helper of `OneActiveIffCountOne`). */
  lemma {:induction false} NoneActiveCount(flags: seq<bool>)
    ensures ActiveCount(flags) == 0 <==> forall i :: 0 <= i < |flags| ==> !flags[i]
  {
    if |flags| > 0 {
      NoneActiveCount(flags[1..]);
      if ActiveCount(flags) == 0 {
        forall i | 0 <= i < |flags|
          ensures !flags[i]
        {
          if i > 0 {
            assert flags[i] == flags[1..][i - 1];
          }
        }
      } else {
        assert flags[0] || exists i :: 0 <= i < |flags[1..]| && flags[1..][i];
      }
    }
  }

  /**
   * "Exactly one active, at `k`" said pointwise agrees with the count: the
   * flags are exactly-one-at-`k` iff the flag at `k` is set and one flag is set.
   */
  lemma {:induction false} OneActiveIffCountOne(flags: seq<bool>, k: int)
    requires 0 <= k < |flags|
    ensures OneActiveAt(flags, k) <==> flags[k] && ActiveCount(flags) == 1
  {
    var tail := flags[1..];
    NoneActiveCount(tail);
    if k == 0 {
      if OneActiveAt(flags, k) {
        forall i | 0 <= i < |tail| ensures !tail[i] {
          assert tail[i] == flags[i + 1];
        }
      }
      if flags[k] && ActiveCount(flags) == 1 {
        forall i | 0 <= i < |flags| ensures flags[i] <==> i == k {
          if i > 0 {
            assert flags[i] == tail[i - 1];
          }
        }
      }
    } else {
      OneActiveIffCountOne(tail, k - 1);
      if OneActiveAt(flags, k) {
        forall i | 0 <= i < |tail| ensures tail[i] <==> i == k - 1 {
          assert tail[i] == flags[i + 1];
        }
      }
      if flags[k] && ActiveCount(flags) == 1 {
        assert tail[k - 1] == flags[k];
        assert ActiveCount(tail) != 0;
        forall i | 0 <= i < |flags| ensures flags[i] <==> i == k {
          if i > 0 {
            assert flags[i] == tail[i - 1];
          }
        }
      }
    }
  }

  /** A valid slider has exactly one active slide and, when dots exist, exactly one active dot. */
  lemma ValidMeansExactlyOneActive(c: SliderState)
    requires Valid(c) && HasSlides(c)
    ensures ActiveCount(c.slides.value) == 1
    ensures c.dots.Some? ==> ActiveCount(c.dots.value) == 1
  {
    OneActiveIffCountOne(c.slides.value, c.current);
    if c.dots.Some? {
      OneActiveIffCountOne(c.dots.value, c.current);
    }
  }

  /** Applying `changeSlide(direction)` `times` times in a row. */
  function ChangeSlideTimes(c: SliderState, direction: int, times: nat): SliderState
    decreases times
  {
    if times == 0 then c else ChangeSlideTimes(ChangeSlide(c, direction).state, direction, times - 1)
  }

  /** After `k` steps of ±1 from a valid state the index is `current ± k` mod N. */
  lemma {:induction false} ChangeSlideTimesIndex(c: SliderState, direction: int, times: nat)
    requires Valid(c) && HasSlides(c)
    requires direction == 1 || direction == -1
    ensures var r := ChangeSlideTimes(c, direction, times);
      && Valid(r)
      && SlideCount(r) == SlideCount(c)
      && (r.dots.Some? <==> c.dots.Some?)
      && r.timer == c.timer
      && r.current == (c.current + direction * times) % SlideCount(c)
    decreases times
  {
    var n := SlideCount(c);
    if times == 0 {
      ModUnique(c.current, n, 0, c.current);
    } else {
      var next := ChangeSlide(c, direction).state;
      ChangeSlideStep(c, direction);
      ChangeSlideTimesIndex(next, direction, times - 1);
      ModAddMod(c.current + direction, direction * (times - 1), n);
      assert c.current + direction + direction * (times - 1) == c.current + direction * times;
    }
  }

  /** Two valid states with the same slides count, dots presence, index and timer are equal. */
  lemma ValidStateDeterminedByIndex(a: SliderState, b: SliderState)
    requires Valid(a) && Valid(b) && HasSlides(a)
    requires a.slides.Some? && b.slides.Some? && SlideCount(a) == SlideCount(b)
    requires a.dots.Some? <==> b.dots.Some?
    requires a.dots.Some? ==> |a.dots.value| == |a.slides.value| && |b.dots.value| == |b.slides.value|
    requires a.current == b.current && a.timer == b.timer
    ensures a == b
  {
    assert a.slides.value == b.slides.value;
    if a.dots.Some? {
      assert a.dots.value == b.dots.value;
    }
  }

  /**
   * The cyclic law: from a valid state, `N` steps forward, or `N` steps back,
   * return the whole slider (index, slide flags, dot flags, timer) to where it was.
   */
  lemma CyclicReturn(c: SliderState, direction: int)
    requires Valid(c) && HasSlides(c)
    requires direction == 1 || direction == -1
    ensures ChangeSlideTimes(c, direction, SlideCount(c)) == c
  {
    var n := SlideCount(c);
    var r := ChangeSlideTimes(c, direction, n);
    ChangeSlideTimesIndex(c, direction, n);
    ModUnique(c.current + direction * n, n, direction, c.current);
    ValidStateDeterminedByIndex(r, c);
  }
}

=== FILE: wrappers.dfy ===
/** Optional values: the model's stand-in for JavaScript's `undefined` / `null`. */
module Wrappers {

  datatype Option<+T> = None | Some(value: T)

}
